=== FILE: README.md ===
# ventu batch protocol, modelled in Dafny

This project models the worker side of ventu's batching protocol,
`BatchProtocol` in `ventu/protocol.py`. A worker connects to the batching
service, sends a zero-length handshake frame, and then answers one batch per
request frame. Each frame is a 4-byte big-endian signed length (`struct`
format `'!i'`) followed by that many bytes. The frame body is a
msgpack-packed envelope that maps job ids to payloads.

For every payload the worker does the following, in batch order:

- decodes the payload with the connection's payload serializer (msgpack or
  JSON);
- validates it against the request schema;
- on a decode error it records `(index, packed error message)`, and on a
  schema violation it records `(index, packed violation list)`.

Inference runs once, on the validated items only, and is skipped when none
validated. Its results must match the validated items in number. Each result
is checked against the response schema and then packed. The recorded errors
are put back at their indices with `list.insert`. The failed jobs' ids are
concatenated into `error_ids`. The response envelope zips the job ids with
the merged list, adds `error_ids` when that string is non-empty, and goes
back msgpack-packed in one frame.

The model consists of pure functions:

- `wrappers.dfy`: `Result`/`Option`, and `Traverse`, a loop whose body may
  raise, which stops at the first failing element.
- `values.dfy`: the decoded value type, and Python's insertion-ordered
  `dict` as a list of pairs (`Assign` is `d[k] = v` and `FromPairs` is
  `dict(pairs)`).
- `frame.dfy`: the `'!i'` header codec, the handshake, `_request`
  (`ReadFrame`) and `_response`'s two writes (`WriteFrame`).
- `serializer.dfy`: `_pack`/`_unpack` and the choice of mode. The msgpack
  and JSON libraries are opaque function parameters.
- `dispatch.dfy`: the list bookkeeping of `process`, generic in item and
  payload type. It covers the scan that splits outcomes into `validated`
  and `errors`, the `list.insert` re-merge, and the `error_ids`
  concatenation. The re-merge and the concatenation each come with an
  independent position-by-position reference definition (`Merge`,
  `FailedIds`) and a proof that the two agree. The scan is characterised
  by `PartitionKeepsValidOrder` and `PartitionErrorsAscending`.
- `protocol.dfy`: per-item classification, the stages of `process`, the
  response builder, one framed `process` call (`ProcessFrame`), and the
  handshake followed by the serving loop over a finite inbound byte stream
  (`Session`, `Serve`).

The pydantic schemas (`parse_obj`) and the inference callable are function
parameters of `Worker`. A schema returns either the parsed object or the
list from `ValidationError.errors()`. A decoder failure is classified in
`Serializer.DecodeError`:

- `Recoverable`: the four exception types that `process` catches per item
  (`JSONDecodeError`, msgpack's `ExtraData`, `FormatError`, `StackError`);
- `Fatal`: anything else, which propagates out of `process`.

Three behaviours of the code that a reader of the protocol might not expect, modelled as the code has them:

- The header is a signed 32-bit length, not an unsigned one. A negative
  length read from the stream is an error (`NegativeLength`), as
  `conn.recv` refuses a negative size.
- A payload decode error is not always confined to its item. Only the four
  exception types above are caught. `msgpack.unpackb` given something other
  than bytes, `json.loads` given something other than `str`/`bytes`, or any
  other decoder exception aborts the whole batch
  (`Protocol.Abort.PayloadUndecodable`).
- The response does not always hold one entry per request entry. The
  envelope becomes a `dict` first, so a repeated job id keeps its first
  position and its last payload (`Values.FromPairsFirstPosition`,
  `Values.FromPairsLastValue`). A job id equal to `error_ids` is
  overwritten by the `error_ids` entry when the concatenated failed ids are
  non-empty, and keeps its own result otherwise
  (`Protocol.BuildResponseLookup`). The exact response list is stated for
  envelopes whose ids avoid `error_ids` (`Protocol.ProcessBatch`,
  `Protocol.DistinctEnvelope`); the per-id lookup holds for every
  envelope.

## Model

| member | source | states |
|---|---|---|
| `Frame.Handshake` | ventu/protocol.py:19-21 | the handshake is the four zero bytes, which decode as the length 0 |
| `Frame.Unsigned` | ventu/protocol.py:19 | the 32-bit two's-complement reading of a signed length: below 2^32, congruent to the length modulo 2^32, equal to it when non-negative and at least 2^31 when negative |
| `Frame.EncodeInt32` | ventu/protocol.py:19-21 | `struct.pack('!i', n)` gives four bytes that spell the length's 32-bit two's-complement value most significant byte first (against the independent reference `BigEndian`), so the top bit is set exactly for a negative length; `DecodeEncodeInt32` and `EncodeDecodeInt32` make it the inverse of `DecodeInt32` |
| `Frame.DecodeInt32` | ventu/protocol.py:43-44 | `struct.unpack('!i', b)` of a 4-byte header gives the signed 32-bit length whose two's-complement value the bytes spell most significant byte first (`BigEndian`), negative exactly when the top bit of the first byte is set |
| `Frame.HandshakeIsEmptyFrame` | ventu/protocol.py:38-40 | the handshake is the frame of the empty body, and reading it back from any stream gives an empty body and leaves the rest unread |
| `Frame.DecodeEncodeInt32` | ventu/protocol.py:19-20 | unpacking the 4-byte `'!i'` encoding of any 32-bit signed length gives the length back |
| `Frame.EncodeDecodeInt32` | ventu/protocol.py:43-44 | every 4-byte header is the encoding of the length it decodes to, so the header codec is a bijection |
| `Frame.WriteFrame` | ventu/protocol.py:105-108 | fails exactly when the data is longer than 2^31 - 1 bytes; otherwise the frame is a header decoding to the data's length followed by the data itself |
| `Frame.ReadFrame` | ventu/protocol.py:42-46 | fewer than 4 bytes, a negative length and a body shorter than announced are each an error; on success the stream is the header, a body of the announced length and the unread rest |
| `Frame.ReadWrittenFrame` | ventu/protocol.py:105-108 | reading a written frame, whatever follows it, returns exactly the written data and the rest of the stream |
| `Frame.ReadFrameIsWrittenFrame` | ventu/protocol.py:42-46 | whatever a read accepts is the written frame of its body followed by the unread rest |
| `Serializer.Pack` | ventu/protocol.py:32-33 | msgpack mode yields bytes and JSON mode yields a string; packing fails exactly when the chosen encoder fails |
| `Serializer.Unpack` | ventu/protocol.py:35-36 | msgpack mode accepts only bytes and JSON mode only strings or bytes, and any other input is an uncaught error; an accepted input is what the chosen decoder returns |
| `Protocol.WellEncodedPayload` | ventu/protocol.py:32-36 | with a serializer whose unpack inverts its pack, a payload packed in the connection's own mode is valid exactly when the request schema accepts the original value, and is otherwise rejected with that schema's violations |
| `Protocol.Reject` | ventu/protocol.py:67-75 | an error detail becomes an invalid outcome carrying its packing in the connection's mode, and a detail that does not pack aborts |
| `Protocol.Classify` | ventu/protocol.py:61-76 | a payload is valid exactly when it decodes and passes the request schema, and then holds the parsed object; a schema violation becomes its packed violation list and a recoverable decode error its packed message, neither aborting unless the packing fails; an uncaught decode error aborts and names the payload's index |
| `Protocol.ValidateAll` | ventu/protocol.py:61-76 | succeeds exactly when every payload classifies, with each outcome the classification of the payload at the same index |
| `Protocol.RecoverableErrorsDoNotAbort` | ventu/protocol.py:61-76 | when every decode failure is one of the four caught exception types and every error detail packs, validation answers every job, however many payloads are malformed or violate the schema |
| `Dispatch.Partition` | ventu/protocol.py:59-76 | `validated` has one entry per valid outcome and `errors` one per invalid outcome; each recorded index points at an invalid outcome carrying the recorded payload |
| `Dispatch.PartitionKeepsValidOrder` | ventu/protocol.py:61-65 | the valid item at position i sits in `validated` at the number of valid outcomes before i, so `validated` keeps batch order |
| `Dispatch.PartitionErrorsAscending` | ventu/protocol.py:67-75 | the recorded error indices are strictly ascending and every invalid position is recorded |
| `Protocol.Infer` | ventu/protocol.py:80-86 | an empty validated list skips inference; otherwise the results are the callable's answer, and a count that differs from the number of validated items aborts with both counts |
| `Protocol.CountMismatchAborts` | ventu/protocol.py:81-86 | a callable that answers with the wrong number of results aborts the whole batch with both counts, with no truncation or padding |
| `Protocol.InferSeesOnlyValidated` | ventu/protocol.py:80-82 | replacing the inference callable by one that agrees with it on the validated list leaves the whole batch unchanged, whether it is answered or aborts; when nothing validated the callable is not consulted at all |
| `Protocol.CheckAll` | ventu/protocol.py:88-90 | with `CheckResponse` as the loop body (`resp_schema.parse_obj` of one result), passes exactly when every result satisfies the response schema; otherwise reports the first violating result's index and violations |
| `Protocol.ResponseViolationAborts` | ventu/protocol.py:88-90 | any result that violates the response schema aborts the batch, which reports a violating result at or before it |
| `Protocol.PackAll` | ventu/protocol.py:94 | with `PackResult` as the comprehension body (`self._pack` of one result), succeeds exactly when every result packs, with one packed value per result at the same index |
| `Dispatch.Insert` | ventu/protocol.py:97 | inserting at an index within the list puts the element there and shifts the tail; an index past the end appends |
| `Dispatch.ReInsert` | ventu/protocol.py:95-97 | the `result.insert` loop lengthens the packed results by one entry per recorded error; what sits where is carried by `ReInsertRestoresOrder` and `MergeAligns` |
| `Dispatch.ReInsertRestoresOrder` | ventu/protocol.py:93-97 | inserting the recorded errors, in recorded order, into the packed results yields the reference list that holds each outcome's payload at its own position |
| `Dispatch.ErrorIds` | ventu/protocol.py:93-96 | `err_ids` is empty exactly when every recorded error belongs to a job with an empty id; its full value is carried by `ErrorIdsInBatchOrder` |
| `Protocol.Reassemble` | ventu/protocol.py:93-97 | the `err_ids`/`result.insert` loop over the recorded errors yields the reference `Merge` of the outcomes and packed results, and the reference `FailedIds` concatenation of the failed jobs' ids |
| `Dispatch.MergeAligns` | ventu/protocol.py:92-97 | in the reference list, an invalid position holds its error payload and a valid position holds the packed result of its rank among the valid outcomes |
| `Dispatch.ErrorIdsInBatchOrder` | ventu/protocol.py:93-96 | the `err_ids` concatenation over the recorded errors equals the ids of the invalid positions concatenated in batch order |
| `Dispatch.FailedIdsEmpty` | ventu/protocol.py:101-102 | the concatenated failed ids are empty exactly when every failed job has an empty id |
| `Protocol.Stages` | ventu/protocol.py:55-98 | the batch is answered exactly when every payload classifies, inference returns one result per validated item, every result passes the response schema and every result packs; a successful batch's lists are related as the loops relate them: outcomes from the validation loop, results from inference, the merged list equal to the reference `Merge` and `error_ids` equal to the reference `FailedIds` |
| `Protocol.StagesClassifyInOrder` | ventu/protocol.py:59-82 | each job's outcome is its own payload's classification, and the items handed to inference are the valid ones in batch order |
| `Protocol.StagesMergeAlign` | ventu/protocol.py:92-97 | the merged list has one entry per job, with each failed job's error payload at its position and the packed results in order elsewhere |
| `Values.FromPairs` | ventu/protocol.py:54-55 | the decoded envelope's `dict` has distinct keys and exactly the envelope's keys |
| `Values.FromPairsLastValue` | ventu/protocol.py:54-55 | a job id repeated in the envelope holds the payload of its last occurrence |
| `Values.FromPairsFirstPosition` | ventu/protocol.py:54-55 | the job table lists its ids in the order of their first occurrence in the envelope |
| `Values.FromDistinctPairs` | ventu/protocol.py:54-55 | an envelope whose keys are already distinct becomes a `dict` with the same pairs in the same order |
| `Values.Assign` | ventu/protocol.py:102 | after `d[k] = v` looking up k gives v and every other key is unchanged; an existing key keeps its position and a new one is appended |
| `Values.Zip` | ventu/protocol.py:100 | pairs the i-th id with the i-th result, up to the shorter list |
| `Protocol.BuildResponse` | ventu/protocol.py:100-102 | the response has distinct keys, and carries the failed ids under `error_ids` whenever that string is non-empty |
| `Protocol.BuildResponseShape` | ventu/protocol.py:100-102 | with distinct ids that avoid `error_ids`, the response is the ids zipped with the merged list in order, followed by the `error_ids` entry exactly when it is non-empty |
| `Protocol.BuildResponseLookup` | ventu/protocol.py:100-102 | for distinct job ids, each id looks up to its own merged result, except that a job named `error_ids` holds the concatenated failed ids when they are non-empty; the key list is the job ids, with `error_ids` appended only when it is non-empty and new |
| `Protocol.ProcessBatch` | ventu/protocol.py:48-103 | a non-map envelope aborts; a map envelope is answered exactly when its stages succeed, with a map of distinct keys whose key list is the job ids plus a new non-empty `error_ids`, each job id looking up to its merged result unless it is `error_ids` and overwritten; absent an `error_ids` job id the response is the job ids zipped with the merged list plus the optional `error_ids` entry |
| `Protocol.DistinctEnvelope` | ventu/protocol.py:54-102 | an envelope with distinct ids that avoid `error_ids` is processed as given, and its response is the ids zipped with the merged list plus the optional `error_ids` entry |
| `Protocol.AnswerAlignment` | ventu/protocol.py:93-100 | in the zipped response, each failed job's entry holds its error payload and each validated job's entry holds the packed result of its rank among the validated jobs, each under the job's own id at the job's own position |
| `Protocol.ResponsePairsJobsWithMerged` | ventu/protocol.py:100 | the response's first entries are the jobs in request order, each paired with its merged result |
| `Protocol.FailedJobsGetErrorPayloads` | ventu/protocol.py:95-100 | every job that failed validation is answered at its own position with its packed error payload |
| `Protocol.ValidJobsGetResults` | ventu/protocol.py:94-100 | every job that passed validation is answered at its own position with the packing of the inference result of its rank among the validated jobs |
| `Protocol.ErrorIdsEntry` | ventu/protocol.py:93-102 | the response has an `error_ids` entry exactly when some failed job has a non-empty id, and it is then the failed ids concatenated in batch order |
| `Protocol.ErrorIdsResponse` | ventu/protocol.py:93-102 | for any outcomes, the response holds an `error_ids` entry exactly when some failed job has a non-empty id, and it is then the failed ids concatenated in batch order |
| `Protocol.MixedBatch` | ventu/protocol.py:48-103 | a two-job batch whose first payload validates and whose second violates the schema is answered, provided inference returns one result that passes the response schema and everything packs; the response holds the first job's packed result, the second job's packed violations, and `error_ids` naming the second job, in that order |
| `Protocol.MixedAnswered` | ventu/protocol.py:59-98 | the two-job batch with one schema violation gets through every stage, the violation being recorded and not raised |
| `Protocol.ProcessFrame` | ventu/protocol.py:48-54 | a request that cannot be read as a frame aborts with the frame error; a readable request is answered exactly when its envelope decodes, the batch is answered, and the response packs to at most 2^31 - 1 bytes; an answered request consumes its frame and leaves exactly the rest of the stream unread |
| `Protocol.EnvelopeIsMsgpack` | ventu/protocol.py:105-108 | in either payload mode, the request envelope is the msgpack decoding of the frame body, and the written frame reads back as exactly the msgpack packing of the response envelope |
| `Protocol.Session` | ventu/protocol.py:121-126 | a connection's output starts with the handshake's four zero bytes, and the peer's first read is an empty frame followed by the served responses |
| `Protocol.Serve` | ventu/protocol.py:125-126 | the served output is a whole number of frames, no more than the request frames on the inbound stream, and nothing is written once a request cannot be answered |
| `Protocol.ServeAnswersInOrder` | ventu/protocol.py:125-126 | the first served frame holds the msgpack packing of the first request's response, followed by the answers to the rest of the stream |

## Left out

- The reconnect loop of `run` (ventu/protocol.py:110-130) is not modelled: the connect call, `BrokenPipeError` handling and unbounded retry. `Session` models one connection over a finite inbound byte stream and stops at the first aborted batch.
- `stop` (ventu/protocol.py:132-137) is not modelled, because closing a socket from another thread has no counterpart in a pure model.
- Frame.ReadFrame: reads exactly the announced number of bytes. A real `recv(n)` may return fewer bytes even when more are coming. A stream that ends early is reported as `ShortRead` instead of a silently short body.
- The msgpack and JSON encoders, pydantic's `parse_obj` and the inference callable are opaque function parameters. Nothing is assumed about them beyond what a lemma states as a precondition (for example `Serializer.RoundTrips`).
- `Value` has no floats, tuples or msgpack extension types, and map keys are strings. A non-string job id, which would make `err_ids += ids[index]` raise, is not modelled.
- Protocol.Infer: models Python `assert` as enabled. Under `python -O` the count check disappears, and that behaviour is not modelled.
- Logging (ventu/protocol.py:29, 39, 56, 66, 69-72, 76, 79, 118, 122, 129, 136), socket creation and the packer's `autoreset` state (27-28) are not modelled. None of them affects what is sent.
- The HTTP front-end, configuration and example files of the repository are not part of this model.

=== FILE: dispatch.dfy ===
/** The list bookkeeping of the batch stage: splitting per-item outcomes into
    validated items and `(index, error payload)` pairs, putting the error
    payloads back at their indices with `list.insert`, and concatenating the
    failed jobs' ids. Generic in the item type `I` and the payload type `P`. */
module Dispatch {

  /** What validating one envelope entry produced. */
  datatype Outcome<I, P> = Valid(item: I) | Invalid(error: P)

  /** The `validated` and `errors` lists of the scan loop. */
  datatype Split<I, P> = Split(validated: seq<I>, errors: seq<(nat, P)>)

  function CountValid<I, P>(o: seq<Outcome<I, P>>): (n: nat)
    ensures n <= |o|
  {
    if o == [] then 0
    else CountValid(o[..|o| - 1]) + (if o[|o| - 1].Valid? then 1 else 0)
  }

  /** The scan loop: a valid outcome appends its item to `validated`, an
      invalid one appends `(i, error)` to `errors`. */
  function Partition<I, P>(o: seq<Outcome<I, P>>): (s: Split<I, P>)
    ensures |s.validated| == CountValid(o)
    ensures |s.validated| + |s.errors| == |o|
    ensures forall j :: 0 <= j < |s.errors| ==>
      s.errors[j].0 < |o| && o[s.errors[j].0] == Invalid(s.errors[j].1)
    ensures forall j :: 0 <= j < |s.errors| ==> s.errors[j].0 <= |s.validated| + j
  {
    if o == [] then Split([], [])
    else
      var last := |o| - 1;
      var init := o[..last];
      var s := Partition(init);
      match o[last]
      case Valid(x) => Split(s.validated + [x], s.errors)
      case Invalid(e) => Split(s.validated, s.errors + [(last, e)])
  }

  /** `validated` holds the valid items in batch order: the item at position
      `i` sits after every valid item that came before it. */
  lemma {:induction false} PartitionKeepsValidOrder<I, P>(o: seq<Outcome<I, P>>)
    ensures forall i :: 0 <= i < |o| && o[i].Valid? ==>
      CountValid(o[..i]) < |Partition(o).validated|
      && Partition(o).validated[CountValid(o[..i])] == o[i].item
  {
    if o != [] {
      var last := |o| - 1;
      var init := o[..last];
      PartitionKeepsValidOrder(init);
      assert forall i :: 0 <= i < last ==> init[..i] == o[..i];
      assert o[..last] == init;
    }
  }

  /** `errors` lists every invalid position exactly once, in ascending
      order. */
  lemma {:induction false} PartitionErrorsAscending<I, P>(o: seq<Outcome<I, P>>)
    ensures forall j, k :: 0 <= j < k < |Partition(o).errors| ==>
      Partition(o).errors[j].0 < Partition(o).errors[k].0
    ensures forall i :: 0 <= i < |o| && o[i].Invalid? ==>
      exists j :: 0 <= j < |Partition(o).errors| && Partition(o).errors[j].0 == i
  {
    if o != [] {
      var last := |o| - 1;
      var init := o[..last];
      PartitionErrorsAscending(init);
      var e := Partition(init).errors;
      var e' := Partition(o).errors;
      assert forall i :: 0 <= i < last ==> init[i] == o[i];
      assert e' == e || e' == e + [(last, o[last].error)];
      assert forall j :: 0 <= j < |e| ==> e'[j] == e[j];
      if o[last].Invalid? {
        assert e'[|e|].0 == last;
      }
    }
  }

  /** `list.insert(i, x)` for a non-negative `i`: an index past the end
      appends. */
  function Insert<P>(s: seq<P>, i: nat, x: P): (r: seq<P>)
    ensures |r| == |s| + 1
    ensures i <= |s| ==> r[i] == x && r[..i] == s[..i] && r[i + 1..] == s[i..]
    ensures i > |s| ==> r == s + [x]
  {
    if i <= |s| then s[..i] + [x] + s[i..] else s + [x]
  }

  /** The loop `for index, err_msg in errors: result.insert(index, err_msg)`. */
  function ReInsert<P>(acc: seq<P>, errors: seq<(nat, P)>): (r: seq<P>)
    ensures |r| == |acc| + |errors|
    decreases |errors|
  {
    if errors == [] then acc
    else ReInsert(Insert(acc, errors[0].0, errors[0].1), errors[1..])
  }

  /** The reference for the merged result list, built position by position:
      an invalid outcome contributes its error payload, a valid one the next
      packed result. */
  function Merge<I, P>(o: seq<Outcome<I, P>>, packed: seq<P>): (r: seq<P>)
    requires |packed| == CountValid(o)
    ensures |r| == |o|
  {
    if o == [] then []
    else
      var last := |o| - 1;
      match o[last]
      case Valid(_) => Merge(o[..last], packed[..|packed| - 1]) + [packed[|packed| - 1]]
      case Invalid(e) => Merge(o[..last], packed) + [e]
  }

  /** Every invalid position of the merged list holds its error payload, and
      the packed results fill the other positions in their relative order. */
  lemma {:induction false} MergeAligns<I, P>(o: seq<Outcome<I, P>>, packed: seq<P>)
    requires |packed| == CountValid(o)
    ensures forall i :: 0 <= i < |o| && o[i].Invalid? ==> Merge(o, packed)[i] == o[i].error
    ensures forall i :: 0 <= i < |o| && o[i].Valid? ==>
      CountValid(o[..i]) < |packed| && Merge(o, packed)[i] == packed[CountValid(o[..i])]
  {
    if o != [] {
      var last := |o| - 1;
      var init := o[..last];
      assert forall i :: 0 <= i < last ==> init[..i] == o[..i] && init[i] == o[i];
      assert o[..last] == init;
      match o[last]
      case Valid(_) =>
        MergeAligns(init, packed[..|packed| - 1]);
      case Invalid(e) =>
        MergeAligns(init, packed);
    }
  }

  lemma {:induction false} ReInsertSnoc<P>(acc: seq<P>, errors: seq<(nat, P)>, e: (nat, P))
    ensures ReInsert(acc, errors + [e]) == Insert(ReInsert(acc, errors), e.0, e.1)
    decreases |errors|
  {
    if errors == [] {
      assert ReInsert(Insert(acc, e.0, e.1), []) == Insert(acc, e.0, e.1);
    } else {
      assert (errors + [e])[0] == errors[0];
      assert (errors + [e])[1..] == errors[1..] + [e];
      ReInsertSnoc(Insert(acc, errors[0].0, errors[0].1), errors[1..], e);
    }
  }

  /** Inserting at indices that never go past the current end leaves an
      element appended to the accumulator at the end. */
  lemma {:induction false} ReInsertKeepsLast<P>(acc: seq<P>, p: P, errors: seq<(nat, P)>)
    requires forall j :: 0 <= j < |errors| ==> errors[j].0 <= |acc| + j
    ensures ReInsert(acc + [p], errors) == ReInsert(acc, errors) + [p]
    decreases |errors|
  {
    if errors != [] {
      var (i, x) := errors[0];
      assert Insert(acc + [p], i, x) == Insert(acc, i, x) + [p];
      var rest := errors[1..];
      assert forall j :: 0 <= j < |rest| ==> rest[j] == errors[j + 1];
      ReInsertKeepsLast(Insert(acc, i, x), p, rest);
    }
  }

  /** Because the errors are recorded in ascending index order, inserting
      them into the packed results restores batch order. */
  lemma {:induction false} ReInsertRestoresOrder<I, P>(o: seq<Outcome<I, P>>, packed: seq<P>)
    requires |packed| == CountValid(o)
    ensures ReInsert(packed, Partition(o).errors) == Merge(o, packed)
    decreases |o|, 1
  {
    if o != [] {
      if o[|o| - 1].Valid? {
        RestoreAfterValid(o, packed);
      } else {
        RestoreAfterInvalid(o, packed);
      }
    }
  }

  /** The step of `ReInsertRestoresOrder` for a batch ending in a valid item:
      its result is the last packed one, and no error is inserted after it. */
  lemma {:induction false} RestoreAfterValid<I, P>(o: seq<Outcome<I, P>>, packed: seq<P>)
    requires o != [] && o[|o| - 1].Valid? && |packed| == CountValid(o)
    ensures ReInsert(packed, Partition(o).errors) == Merge(o, packed)
    decreases |o|, 0
  {
    var last := |o| - 1;
    var init := o[..last];
    var errs := Partition(init).errors;
    var p0 := packed[..|packed| - 1];
    var x := packed[|packed| - 1];
    assert |p0| == |Partition(init).validated|;
    assert packed == p0 + [x];
    ReInsertRestoresOrder(init, p0);
    ReInsertKeepsLast(p0, x, errs);
    calc {
      ReInsert(packed, Partition(o).errors);
      ReInsert(p0 + [x], errs);
      ReInsert(p0, errs) + [x];
      Merge(init, p0) + [x];
      Merge(o, packed);
    }
  }

  /** The step of `ReInsertRestoresOrder` for a batch ending in an invalid
      item: its error is recorded last, at the last index. */
  lemma {:induction false} RestoreAfterInvalid<I, P>(o: seq<Outcome<I, P>>, packed: seq<P>)
    requires o != [] && o[|o| - 1].Invalid? && |packed| == CountValid(o)
    ensures ReInsert(packed, Partition(o).errors) == Merge(o, packed)
    decreases |o|, 0
  {
    var last := |o| - 1;
    var init := o[..last];
    var errs := Partition(init).errors;
    var e := o[last].error;
    assert Partition(o).errors == errs + [(last, e)];
    assert Merge(o, packed) == Merge(init, packed) + [e];
    ReInsertRestoresOrder(init, packed);
    ReInsertSnoc(packed, errs, (last, e));
  }

  /** `err_ids += ids[index]` over the recorded errors. */
  function ErrorIds<P>(ids: seq<string>, errors: seq<(nat, P)>): (r: string)
    requires forall j :: 0 <= j < |errors| ==> errors[j].0 < |ids|
    ensures r == "" <==> forall j :: 0 <= j < |errors| ==> ids[errors[j].0] == ""
  {
    if errors == [] then ""
    else ErrorIds(ids, errors[..|errors| - 1]) + ids[errors[|errors| - 1].0]
  }

  /** The reference: the ids of the invalid positions, concatenated in
      ascending position order. */
  function FailedIds<I, P>(ids: seq<string>, o: seq<Outcome<I, P>>): string
    requires |ids| == |o|
  {
    if o == [] then ""
    else
      var last := |o| - 1;
      FailedIds(ids[..last], o[..last]) + (if o[last].Invalid? then ids[last] else "")
  }

  lemma {:induction false} ErrorIdsPrefix<P>(ids: seq<string>, n: nat, errors: seq<(nat, P)>)
    requires n <= |ids|
    requires forall j :: 0 <= j < |errors| ==> errors[j].0 < n
    ensures ErrorIds(ids, errors) == ErrorIds(ids[..n], errors)
    decreases |errors|
  {
    if errors != [] {
      ErrorIdsPrefix(ids, n, errors[..|errors| - 1]);
    }
  }

  /** `error_ids` names exactly the failed jobs, in batch order. */
  lemma {:induction false} ErrorIdsInBatchOrder<I, P>(ids: seq<string>, o: seq<Outcome<I, P>>)
    requires |ids| == |o|
    ensures ErrorIds(ids, Partition(o).errors) == FailedIds(ids, o)
  {
    if o != [] {
      var last := |o| - 1;
      var init := o[..last];
      var s := Partition(init);
      ErrorIdsInBatchOrder(ids[..last], init);
      ErrorIdsPrefix(ids, last, s.errors);
      match o[last]
      case Valid(_) =>
        assert Partition(o).errors == s.errors;
        assert FailedIds(ids, o) == FailedIds(ids[..last], init);
      case Invalid(e) =>
        var errs: seq<(nat, P)> := s.errors + [(last, e)];
        assert Partition(o).errors == errs;
        assert errs[..|s.errors|] == s.errors;
        assert ErrorIds(ids, errs) == ErrorIds(ids, s.errors) + ids[last];
        assert FailedIds(ids, o) == FailedIds(ids[..last], init) + ids[last];
    }
  }

  /** The concatenation is empty exactly when every failed job has an empty
      id, so a failed job with a non-empty id always shows up. */
  lemma {:induction false} FailedIdsEmpty<I, P>(ids: seq<string>, o: seq<Outcome<I, P>>)
    requires |ids| == |o|
    ensures FailedIds(ids, o) == "" <==> forall i :: 0 <= i < |o| && o[i].Invalid? ==> ids[i] == ""
  {
    if o != [] {
      var last := |o| - 1;
      FailedIdsEmpty(ids[..last], o[..last]);
      assert forall i :: 0 <= i < last ==> ids[..last][i] == ids[i] && o[..last][i] == o[i];
    }
  }
}

=== FILE: frame.dfy ===
/** The frame codec: every message on the socket is a 4-byte big-endian
    signed length (`struct` format `'!i'`) followed by that many bytes, and
    the worker's handshake is the frame of length zero. */
module Frame {
  import opened Bytes
  import opened Wrappers

  /** `INT_BYTE_SIZE`, the width of the `'!i'` header. */
  const HeaderSize: nat := 4

  const Int32Min: int := -0x8000_0000
  const Int32Max: int := 0x7FFF_FFFF

  predicate IsInt32(n: int) {
    Int32Min <= n <= Int32Max
  }

  datatype FrameError =
    | LengthOverflow(size: nat)         // `struct.pack('!i', n)` with n beyond 2^31 - 1
    | HeaderTooShort(got: nat)          // `struct.unpack` given fewer than 4 bytes
    | NegativeLength(length: int)       // `conn.recv(n)` with n < 0
    | ShortRead(wanted: nat, got: nat)  // the peer sent fewer body bytes than announced

  /** The 32-bit two's complement bit pattern of `n`, as an unsigned number. */
  function Unsigned(n: int): (u: nat)
    requires IsInt32(n)
    ensures u < 0x1_0000_0000
    ensures n >= 0 ==> u == n
    ensures n < 0 ==> u >= 0x8000_0000
    ensures (u - n) % 0x1_0000_0000 == 0
  {
    if n < 0 then n + 0x1_0000_0000 else n
  }

  /** The unsigned number that bytes spell most significant byte first. */
  function BigEndian(bs: seq<byte>): nat {
    if bs == [] then 0 else BigEndian(bs[..|bs| - 1]) * 0x100 + bs[|bs| - 1]
  }

  /** `struct.pack('!i', n)`: most significant byte first. */
  function EncodeInt32(n: int): (b: seq<byte>)
    requires IsInt32(n)
    ensures |b| == HeaderSize
    ensures (n < 0) == (b[0] >= 0x80)
    ensures BigEndian(b) == Unsigned(n)
  {
    var u := Unsigned(n);
    var u1 := u / 0x100;
    var u2 := u1 / 0x100;
    var b: seq<byte> := [u2 / 0x100, u2 % 0x100, u1 % 0x100, u % 0x100];
    BigEndianOfFour(b);
    assert u == u1 * 0x100 + u % 0x100;
    assert u1 == u2 * 0x100 + u1 % 0x100;
    assert u2 == (u2 / 0x100) * 0x100 + u2 % 0x100;
    b
  }

  /** Four bytes spell `((b0 * 256 + b1) * 256 + b2) * 256 + b3`. */
  lemma BigEndianOfFour(b: seq<byte>)
    requires |b| == HeaderSize
    ensures BigEndian(b) == ((b[0] as int * 0x100 + b[1]) * 0x100 + b[2]) * 0x100 + b[3]
  {
    var b1, b2, b3 := b[..1], b[..2], b[..3];
    assert b1[..0] == [] && b2[..1] == b1 && b3[..2] == b2 && b[..3] == b3;
    assert BigEndian(b1) == b[0];
    assert BigEndian(b2) == b[0] as int * 0x100 + b[1];
    assert BigEndian(b3) == (b[0] as int * 0x100 + b[1]) * 0x100 + b[2];
  }

  /** `struct.unpack('!i', b)[0]` */
  function DecodeInt32(b: seq<byte>): (n: int)
    requires |b| == HeaderSize
    ensures IsInt32(n)
    ensures (n < 0) == (b[0] >= 0x80)
    ensures Unsigned(n) == BigEndian(b)
  {
    BigEndianOfFour(b);
    var u: int := ((b[0] as int * 0x100 + b[1]) * 0x100 + b[2]) * 0x100 + b[3];
    if u >= 0x8000_0000 then u - 0x1_0000_0000 else u
  }

  lemma DecodeEncodeInt32(n: int)
    requires IsInt32(n)
    ensures DecodeInt32(EncodeInt32(n)) == n
  {
    var u := Unsigned(n);
    var u1 := u / 0x100;
    var u2 := u1 / 0x100;
    assert u == u1 * 0x100 + u % 0x100;
    assert u1 == u2 * 0x100 + u1 % 0x100;
    assert u2 == (u2 / 0x100) * 0x100 + u2 % 0x100;
  }

  lemma EncodeDecodeInt32(b: seq<byte>)
    requires |b| == HeaderSize
    ensures EncodeInt32(DecodeInt32(b)) == b
  {
    var u2: int := b[0] as int * 0x100 + b[1];
    var u1: int := u2 * 0x100 + b[2];
    var u: int := u1 * 0x100 + b[3];
    assert Unsigned(DecodeInt32(b)) == u;
    assert u / 0x100 == u1 && u % 0x100 == b[3];
    assert u1 / 0x100 == u2 && u1 % 0x100 == b[2];
    assert u2 / 0x100 == b[0] && u2 % 0x100 == b[1];
  }

  /** `INIT_MESSAGE`, sent once right after connecting. */
  function Handshake(): (m: seq<byte>)
    ensures m == [0, 0, 0, 0]
    ensures DecodeInt32(m) == 0
  {
    EncodeInt32(0)
  }

  /** `_response`'s two `sendall` calls: the packed length, then the data. */
  function WriteFrame(data: seq<byte>): (r: Result<seq<byte>, FrameError>)
    ensures r.Failure? <==> |data| > Int32Max
    ensures r.Failure? ==> r.error == LengthOverflow(|data|)
    ensures r.Success? ==> |r.value| == HeaderSize + |data|
    ensures r.Success? ==> DecodeInt32(r.value[..HeaderSize]) == |data|
    ensures r.Success? ==> r.value[HeaderSize..] == data
  {
    if |data| > Int32Max then Failure(LengthOverflow(|data|))
    else
      DecodeEncodeInt32(|data|);
      Success(EncodeInt32(|data|) + data)
  }

  /** `_request`: reads the 4-byte header, then exactly as many bytes as it
      announces; returns the body and the bytes still unread. */
  function ReadFrame(stream: seq<byte>): (r: Result<(seq<byte>, seq<byte>), FrameError>)
    ensures |stream| < HeaderSize ==> r == Failure(HeaderTooShort(|stream|))
    ensures |stream| >= HeaderSize ==>
      var n := DecodeInt32(stream[..HeaderSize]);
      && (n < 0 ==> r == Failure(NegativeLength(n)))
      && (r.Success? <==> 0 <= n <= |stream| - HeaderSize)
    ensures r.Success? ==>
      && |stream| >= HeaderSize
      && |r.value.0| == DecodeInt32(stream[..HeaderSize])
      && stream == stream[..HeaderSize] + r.value.0 + r.value.1
  {
    if |stream| < HeaderSize then Failure(HeaderTooShort(|stream|))
    else
      var n := DecodeInt32(stream[..HeaderSize]);
      if n < 0 then Failure(NegativeLength(n))
      else if |stream| - HeaderSize < n then Failure(ShortRead(n, |stream| - HeaderSize))
      else
        var body := stream[HeaderSize..HeaderSize + n];
        var rest := stream[HeaderSize + n..];
        assert stream == stream[..HeaderSize] + body + rest;
        Success((body, rest))
  }

  /** Reading back a written frame, whatever follows it on the stream,
      returns exactly the data that was written. */
  lemma {:induction false} ReadWrittenFrame(data: seq<byte>, rest: seq<byte>)
    requires WriteFrame(data).Success?
    ensures ReadFrame(WriteFrame(data).value + rest) == Success((data, rest))
  {
    var f := WriteFrame(data).value;
    var s := f + rest;
    assert s[..HeaderSize] == f[..HeaderSize];
    assert s[HeaderSize..HeaderSize + |data|] == data;
    assert s[HeaderSize + |data|..] == rest;
  }

  /** Conversely, whatever a read accepts is one written frame followed by the
      unread rest of the stream. */
  lemma {:induction false} ReadFrameIsWrittenFrame(stream: seq<byte>)
    requires ReadFrame(stream).Success?
    ensures WriteFrame(ReadFrame(stream).value.0).Success?
    ensures stream == WriteFrame(ReadFrame(stream).value.0).value + ReadFrame(stream).value.1
  {
    var (body, rest) := ReadFrame(stream).value;
    EncodeDecodeInt32(stream[..HeaderSize]);
    assert WriteFrame(body).value == EncodeInt32(|body|) + body;
  }

  /** A complete frame stays readable, with the same body, whatever is
      appended after it. */
  lemma {:induction false} ReadFrameExtend(f: seq<byte>, tail: seq<byte>)
    requires ReadFrame(f).Success? && ReadFrame(f).value.1 == []
    ensures ReadFrame(f + tail) == Success((ReadFrame(f).value.0, tail))
  {
    var body := ReadFrame(f).value.0;
    ReadFrameIsWrittenFrame(f);
    assert f == WriteFrame(body).value;
    ReadWrittenFrame(body, tail);
  }

  /** The bodies of the frames read one after the other from the front of a
      stream, and the bytes left when the next frame cannot be read. */
  function ReadFrames(stream: seq<byte>): (r: (seq<seq<byte>>, seq<byte>))
    ensures ReadFrame(r.1).Failure?
    ensures |r.1| <= |stream|
    ensures r.0 == [] <==> ReadFrame(stream).Failure?
    decreases |stream|
  {
    match ReadFrame(stream)
    case Failure(_) => ([], stream)
    case Success((body, rest)) =>
      var (bodies, left) := ReadFrames(rest);
      ([body] + bodies, left)
  }

  /** The handshake reads as a frame with an empty body. */
  lemma HandshakeIsEmptyFrame(rest: seq<byte>)
    ensures WriteFrame([]) == Success(Handshake())
    ensures ReadFrame(Handshake() + rest) == Success(([], rest))
  {
    ReadWrittenFrame([], rest);
  }
}

=== FILE: protocol.dfy ===
/** `BatchProtocol`: the worker's side of the batching protocol. It reads one
    framed, msgpack-packed envelope mapping job id to payload, validates each
    payload against the request schema, runs inference on the valid ones,
    checks and packs the results, puts the error payloads back in place and
    writes one framed, msgpack-packed envelope in reply. */
module Protocol {
  import opened Bytes
  import opened Wrappers
  import opened Values
  import opened Frame
  import opened Serializer
  import opened Dispatch

  /** The response key whose value lists the failed jobs. */
  const ErrorIdsKey: string := "error_ids"

  /** Why a call to `process` raises instead of answering. */
  datatype Abort =
    | FrameFailed(frame: FrameError)
    | EnvelopeUndecodable(reason: DecodeError)
    | EnvelopeNotMap
    | PayloadUndecodable(index: nat, message: string)
    | PackFailed(message: string)
    | ResultCountMismatch(expected: nat, got: nat)
    | ResponseInvalid(index: nat, violations: Value)

  /** A `BatchProtocol` object: its serializers, its payload mode, the
      request and response schemas' `parse_obj` (the parsed object, or the
      list of violations from `ValidationError.errors()`), and the inference
      callable. */
  datatype Worker = Worker(
    codecs: Codecs,
    mode: Mode,
    requestSchema: Value -> Result<Value, Value>,
    responseSchema: Value -> Result<Value, Value>,
    infer: seq<Value> -> seq<Value>)

  type Item = Outcome<Value, Value>

  /** Packs an error detail (a decoder message or a violation list) in the
      connection's mode; a detail that does not pack raises. */
  function Reject(w: Worker, detail: Value): (r: Result<Item, Abort>)
    ensures r.Success? <==> Pack(w.codecs, w.mode, detail).Success?
    ensures r.Success? ==> r == Success(Invalid(Pack(w.codecs, w.mode, detail).value))
  {
    match Pack(w.codecs, w.mode, detail)
    case Success(p) => Success(Invalid(p))
    case Failure(m) => Failure(PackFailed(m))
  }

  /** One iteration of the request-validation loop, for the payload at
      index `i`. */
  function Classify(w: Worker, raw: Value, i: nat): (r: Result<Item, Abort>)
    ensures (r.Success? && r.value.Valid?) <==>
      (Unpack(w.codecs, w.mode, raw).Success?
       && w.requestSchema(Unpack(w.codecs, w.mode, raw).value).Success?)
    ensures r.Success? && r.value.Valid? ==>
      r.value.item == w.requestSchema(Unpack(w.codecs, w.mode, raw).value).value
    ensures r.Failure? ==> r.error.PackFailed? || (r.error.PayloadUndecodable? && r.error.index == i)
    ensures Unpack(w.codecs, w.mode, raw).Failure? && Unpack(w.codecs, w.mode, raw).error.Fatal? ==>
      r == Failure(PayloadUndecodable(i, Unpack(w.codecs, w.mode, raw).error.message))
    ensures Unpack(w.codecs, w.mode, raw).Failure? && Unpack(w.codecs, w.mode, raw).error.Recoverable? ==>
      r == Reject(w, Str(Unpack(w.codecs, w.mode, raw).error.message))
    ensures Unpack(w.codecs, w.mode, raw).Success? && w.requestSchema(Unpack(w.codecs, w.mode, raw).value).Failure? ==>
      r == Reject(w, w.requestSchema(Unpack(w.codecs, w.mode, raw).value).error)
  {
    match Unpack(w.codecs, w.mode, raw)
    case Failure(Fatal(m)) => Failure(PayloadUndecodable(i, m))
    case Failure(Recoverable(m)) => Reject(w, Str(m))
    case Success(data) =>
      match w.requestSchema(data)
      case Success(obj) => Success(Valid(obj))
      case Failure(violations) => Reject(w, violations)
  }

  /** The inference step: skipped for an empty batch, and an assertion
      failure when the callable answers with a different number of
      results. */
  function Infer(w: Worker, validated: seq<Value>): (r: Result<seq<Value>, Abort>)
    ensures r.Success? ==> |r.value| == |validated|
    ensures validated == [] ==> r == Success([])
    ensures validated != [] ==> (r.Success? <==> |w.infer(validated)| == |validated|)
    ensures validated != [] && r.Success? ==> r.value == w.infer(validated)
    ensures r.Failure? ==> r.error == ResultCountMismatch(|validated|, |w.infer(validated)|)
  {
    if validated == [] then Success([])
    else
      var results := w.infer(validated);
      if |results| != |validated| then Failure(ResultCountMismatch(|validated|, |results|))
      else Success(results)
  }

  /** `resp_schema.parse_obj(data)` for the `k`-th result. */
  function CheckResponse(w: Worker, result: Value, k: nat): Result<Value, Abort> {
    match w.responseSchema(result)
    case Success(obj) => Success(obj)
    case Failure(violations) => Failure(ResponseInvalid(k, violations))
  }

  function PackResult(w: Worker, result: Value, k: nat): Result<Value, Abort> {
    match Pack(w.codecs, w.mode, result)
    case Success(p) => Success(p)
    case Failure(m) => Failure(PackFailed(m))
  }

  /** The intermediate lists of one `process` call. */
  datatype Trace = Trace(
    ids: seq<string>,
    outcomes: seq<Item>,
    validated: seq<Value>,
    results: seq<Value>,
    packed: seq<Value>,
    merged: seq<Value>,
    errorIds: string)

  /** The per-item validation loop of `process`. */
  function ValidateAll(w: Worker, payloads: seq<Value>): (r: Result<seq<Item>, Abort>)
    ensures r.Success? ==> |r.value| == |payloads|
    ensures r.Success? ==> forall i :: 0 <= i < |payloads| ==> Classify(w, payloads[i], i) == Success(r.value[i])
    ensures r.Success? <==> forall i :: 0 <= i < |payloads| ==> Classify(w, payloads[i], i).Success?
  {
    Traverse(payloads, (raw, i) => Classify(w, raw, i))
  }

  /** The response-schema check of every result. */
  function CheckAll(w: Worker, results: seq<Value>): (r: Result<seq<Value>, Abort>)
    ensures r.Success? <==> forall k :: 0 <= k < |results| ==> w.responseSchema(results[k]).Success?
    ensures r.Failure? ==>
      && r.error.ResponseInvalid?
      && r.error.index < |results|
      && w.responseSchema(results[r.error.index]) == Failure(r.error.violations)
      && forall k :: 0 <= k < r.error.index ==> w.responseSchema(results[k]).Success?
  {
    Traverse(results, (result, k) => CheckResponse(w, result, k))
  }

  /** `[self._pack(data) for data in result]` */
  function PackAll(w: Worker, results: seq<Value>): (r: Result<seq<Value>, Abort>)
    ensures r.Success? ==> |r.value| == |results|
    ensures r.Success? ==> forall k :: 0 <= k < |results| ==> Pack(w.codecs, w.mode, results[k]) == Success(r.value[k])
    ensures r.Success? <==> forall k :: 0 <= k < |results| ==> Pack(w.codecs, w.mode, results[k]).Success?
  {
    Traverse(results, (result, k) => PackResult(w, result, k))
  }

  /** `process` from the decoded job table to the merged result list and
      the `error_ids` string. The merged list is the one `list.insert`
      builds, and it equals the position-by-position reference `Merge`; the
      `error_ids` string equals the reference `FailedIds`. */
  function Stages(w: Worker, table: Dict): (r: Result<Trace, Abort>)
    ensures r.Success? ==> r.value.ids == Keys(table)
    ensures r.Success? ==> ValidateAll(w, Vals(table)) == Success(r.value.outcomes)
    ensures r.Success? ==> r.value.validated == Partition(r.value.outcomes).validated
    ensures r.Success? ==> Infer(w, r.value.validated) == Success(r.value.results)
    ensures r.Success? ==> CheckAll(w, r.value.results).Success?
    ensures r.Success? ==> PackAll(w, r.value.results) == Success(r.value.packed)
    ensures r.Success? ==>
      |r.value.packed| == CountValid(r.value.outcomes)
      && r.value.merged == Merge(r.value.outcomes, r.value.packed)
    ensures r.Success? ==>
      |r.value.ids| == |r.value.outcomes|
      && r.value.errorIds == FailedIds(r.value.ids, r.value.outcomes)
    ensures r.Success? <==>
      && ValidateAll(w, Vals(table)).Success?
      && var validated := Partition(ValidateAll(w, Vals(table)).value).validated;
         && Infer(w, validated).Success?
         && CheckAll(w, Infer(w, validated).value).Success?
         && PackAll(w, Infer(w, validated).value).Success?
  {
    var ids := Keys(table);
    match ValidateAll(w, Vals(table))
    case Failure(a) => Failure(a)
    case Success(outcomes) =>
      var split := Partition(outcomes);
      match Infer(w, split.validated)
      case Failure(a) => Failure(a)
      case Success(results) =>
        match CheckAll(w, results)
        case Failure(a) => Failure(a)
        case Success(_) =>
          match PackAll(w, results)
          case Failure(a) => Failure(a)
          case Success(packed) =>
            var (merged, errorIds) := Reassemble(ids, outcomes, packed);
            Success(Trace(ids, outcomes, split.validated, results, packed, merged, errorIds))
  }

  /** The tail of `process`: the error payloads inserted back among the
      packed results, and the failed jobs' ids concatenated. */
  function Reassemble(ids: seq<string>, outcomes: seq<Item>, packed: seq<Value>): (r: (seq<Value>, string))
    requires |ids| == |outcomes| && |packed| == CountValid(outcomes)
    ensures r.0 == Merge(outcomes, packed)
    ensures r.1 == FailedIds(ids, outcomes)
  {
    var errors := Partition(outcomes).errors;
    ReInsertRestoresOrder(outcomes, packed);
    ErrorIdsInBatchOrder(ids, outcomes);
    (ReInsert(packed, errors), ErrorIds(ids, errors))
  }

  /** Each job's outcome comes from its own payload, and the validated items
      handed to inference are the valid outcomes in batch order. */
  lemma {:induction false} StagesClassifyInOrder(w: Worker, table: Dict)
    requires Stages(w, table).Success?
    ensures var t := Stages(w, table).value;
      && |t.outcomes| == |table|
      && (forall i :: 0 <= i < |table| ==> Classify(w, table[i].1, i) == Success(t.outcomes[i]))
      && |t.validated| == CountValid(t.outcomes)
      && (forall i :: 0 <= i < |table| && t.outcomes[i].Valid? ==>
            CountValid(t.outcomes[..i]) < |t.validated|
            && t.validated[CountValid(t.outcomes[..i])] == t.outcomes[i].item)
  {
    PartitionKeepsValidOrder(Stages(w, table).value.outcomes);
  }

  /** The merged list holds each failed job's error payload at the job's own
      position and the packed results, in order, everywhere else. */
  lemma {:induction false} StagesMergeAlign(w: Worker, table: Dict)
    requires Stages(w, table).Success?
    ensures var t := Stages(w, table).value;
      && |t.outcomes| == |table| == |t.merged|
      && (forall i :: 0 <= i < |table| && t.outcomes[i].Invalid? ==> t.merged[i] == t.outcomes[i].error)
      && (forall i :: 0 <= i < |table| && t.outcomes[i].Valid? ==>
            CountValid(t.outcomes[..i]) < |t.packed|
            && t.merged[i] == t.packed[CountValid(t.outcomes[..i])])
  {
    var t := Stages(w, table).value;
    MergeAligns(t.outcomes, t.packed);
  }

  /** `dict(zip(ids, result))`, plus the `error_ids` entry when the
      concatenated failed ids are non-empty. */
  function BuildResponse(ids: seq<string>, merged: seq<Value>, errorIds: string): (r: Dict)
    ensures Distinct(Keys(r))
    ensures errorIds != "" ==> Lookup(r, ErrorIdsKey) == Some(Str(errorIds))
  {
    var table := FromPairs(Zip(ids, merged));
    if errorIds == "" then table else Assign(table, ErrorIdsKey, Str(errorIds))
  }

  /** With distinct job ids, one result per id and no id equal to
      `error_ids`, the response pairs the ids with the results in order and
      ends with the `error_ids` entry exactly when that string is
      non-empty. */
  lemma {:induction false} BuildResponseShape(ids: seq<string>, merged: seq<Value>, errorIds: string)
    requires Distinct(ids) && |merged| == |ids| && ErrorIdsKey !in ids
    ensures BuildResponse(ids, merged, errorIds) ==
      Zip(ids, merged) + (if errorIds == "" then [] else [(ErrorIdsKey, Str(errorIds))])
  {
    var zipped := Zip(ids, merged);
    assert Keys(zipped) == ids;
    FromDistinctPairs(zipped);
    if errorIds == "" {
      assert zipped + [] == zipped;
    }
  }

  /** With distinct job ids and one result per id, every job id looks up
      to its own result, except that a job named `error_ids` is overwritten
      by the concatenated failed ids when that string is non-empty; the
      `error_ids` key is added at the end only when it is new. */
  lemma {:induction false} BuildResponseLookup(ids: seq<string>, merged: seq<Value>, errorIds: string)
    requires Distinct(ids) && |merged| == |ids|
    ensures var r := BuildResponse(ids, merged, errorIds);
      && Keys(r) == ids + (if errorIds != "" && ErrorIdsKey !in ids then [ErrorIdsKey] else [])
      && (forall i :: 0 <= i < |ids| ==>
            Lookup(r, ids[i]) == if ids[i] == ErrorIdsKey && errorIds != "" then Some(Str(errorIds)) else Some(merged[i]))
  {
    var z := Zip(ids, merged);
    ZipTable(ids, merged);
    if errorIds == "" {
      assert ids + [] == ids;
    } else if ErrorIdsKey !in ids {
      assert Keys(z + [(ErrorIdsKey, Str(errorIds))]) == ids + [ErrorIdsKey];
    } else {
      assert ids + [] == ids;
    }
  }

  /** Distinct ids zipped with their results form a dict as they stand, and
      each id looks up to its own result. */
  lemma {:induction false} ZipTable(ids: seq<string>, merged: seq<Value>)
    requires Distinct(ids) && |merged| == |ids|
    ensures Keys(Zip(ids, merged)) == ids
    ensures FromPairs(Zip(ids, merged)) == Zip(ids, merged)
    ensures forall i :: 0 <= i < |ids| ==> Lookup(Zip(ids, merged), ids[i]) == Some(merged[i])
  {
    var z := Zip(ids, merged);
    assert Keys(z) == ids;
    FromDistinctPairs(z);
    forall i | 0 <= i < |ids|
      ensures Lookup(z, ids[i]) == Some(merged[i])
    {
      assert z[i] == (ids[i], merged[i]);
    }
  }

  /** `process` from the decoded envelope to the response envelope. The
      envelope's pairs become a dict first, so a repeated job id keeps its
      first position and its last payload. */
  function ProcessBatch(w: Worker, batch: Value): (r: Result<Value, Abort>)
    ensures !batch.Map? ==> r == Failure(EnvelopeNotMap)
    ensures batch.Map? ==> (r.Success? <==> Stages(w, FromPairs(batch.entries)).Success?)
    ensures r.Success? ==> r.value.Map? && Distinct(Keys(r.value.entries))
    ensures r.Success? ==>
      var t := Stages(w, FromPairs(batch.entries)).value;
      ErrorIdsKey !in t.ids ==>
        r.value.entries == Zip(t.ids, t.merged) + (if t.errorIds == "" then [] else [(ErrorIdsKey, Str(t.errorIds))])
    ensures r.Success? ==>
      var t := Stages(w, FromPairs(batch.entries)).value;
      && Keys(r.value.entries) == t.ids + (if t.errorIds != "" && ErrorIdsKey !in t.ids then [ErrorIdsKey] else [])
      && forall i :: 0 <= i < |t.ids| ==>
           Lookup(r.value.entries, t.ids[i]) ==
             if t.ids[i] == ErrorIdsKey && t.errorIds != "" then Some(Str(t.errorIds)) else Some(t.merged[i])
  {
    if !batch.Map? then Failure(EnvelopeNotMap)
    else
      var table := FromPairs(batch.entries);
      match Stages(w, table)
      case Failure(a) => Failure(a)
      case Success(t) =>
        BuildResponseLookup(t.ids, t.merged, t.errorIds);
        if ErrorIdsKey !in t.ids then
          BuildResponseShape(t.ids, t.merged, t.errorIds);
          Success(Map(BuildResponse(t.ids, t.merged, t.errorIds)))
        else Success(Map(BuildResponse(t.ids, t.merged, t.errorIds)))
  }

  lemma {:induction false} ResponsePairsJobsWithMerged(w: Worker, batch: Value)
    requires ProcessBatch(w, batch).Success?
    requires ErrorIdsKey !in Keys(FromPairs(batch.entries))
    ensures var table := FromPairs(batch.entries);
      var resp := ProcessBatch(w, batch).value.entries;
      && |resp| >= |table|
      && |Stages(w, table).value.merged| == |table|
      && forall i :: 0 <= i < |table| ==> resp[i] == (table[i].0, Stages(w, table).value.merged[i])
  {
    var table := FromPairs(batch.entries);
    var t := Stages(w, table).value;
    var tail := if t.errorIds == "" then [] else [(ErrorIdsKey, Str(t.errorIds))];
    ZipPrefix(t.ids, t.merged, tail);
  }

  /** The zipped pairs, read back from the front of any longer list. */
  lemma {:induction false} ZipPrefix(ids: seq<string>, merged: seq<Value>, tail: Dict)
    requires |merged| == |ids|
    ensures |Zip(ids, merged) + tail| >= |ids|
    ensures forall i :: 0 <= i < |ids| ==> (Zip(ids, merged) + tail)[i] == (ids[i], merged[i])
  {
    var z := Zip(ids, merged);
    assert forall i :: 0 <= i < |ids| ==> (z + tail)[i] == z[i];
  }

  /** The response built from any outcomes and packed results: a failed
      job's entry holds its error payload, a validated job's entry the packed
      result of its rank among the validated jobs, each under the job's own
      id and at the job's own position. */
  lemma {:induction false} AnswerAlignment(ids: seq<string>, outcomes: seq<Item>, packed: seq<Value>, tail: Dict)
    requires |ids| == |outcomes| && |packed| == CountValid(outcomes)
    ensures var resp := Zip(ids, Merge(outcomes, packed)) + tail;
      && |resp| == |ids| + |tail|
      && (forall i :: 0 <= i < |ids| && outcomes[i].Invalid? ==> resp[i] == (ids[i], outcomes[i].error))
      && (forall i :: 0 <= i < |ids| && outcomes[i].Valid? ==>
            CountValid(outcomes[..i]) < |packed| && resp[i] == (ids[i], packed[CountValid(outcomes[..i])]))
  {
    MergeAligns(outcomes, packed);
    ZipPrefix(ids, Merge(outcomes, packed), tail);
  }

  /** Every job that failed validation is answered, at its own position in
      the request order, with its error payload. */
  lemma {:induction false} FailedJobsGetErrorPayloads(w: Worker, batch: Value)
    requires ProcessBatch(w, batch).Success?
    requires ErrorIdsKey !in Keys(FromPairs(batch.entries))
    ensures var table := FromPairs(batch.entries);
      var t := Stages(w, table).value;
      var resp := ProcessBatch(w, batch).value.entries;
      && |resp| >= |table| == |t.outcomes|
      && forall i :: 0 <= i < |table| && t.outcomes[i].Invalid? ==>
           resp[i] == (table[i].0, t.outcomes[i].error)
  {
    StagesMergeAlign(w, FromPairs(batch.entries));
    ResponsePairsJobsWithMerged(w, batch);
  }

  /** Every job that passed validation is answered, at its own position in
      the request order, with the packed inference result of its rank among
      the validated jobs. */
  lemma {:induction false} ValidJobsGetResults(w: Worker, batch: Value)
    requires ProcessBatch(w, batch).Success?
    requires ErrorIdsKey !in Keys(FromPairs(batch.entries))
    ensures var table := FromPairs(batch.entries);
      var t := Stages(w, table).value;
      var resp := ProcessBatch(w, batch).value.entries;
      && |resp| >= |table| == |t.outcomes|
      && forall i :: 0 <= i < |table| && t.outcomes[i].Valid? ==>
           CountValid(t.outcomes[..i]) < |t.results|
           && resp[i].0 == table[i].0
           && Pack(w.codecs, w.mode, t.results[CountValid(t.outcomes[..i])]) == Success(resp[i].1)
  {
    var table := FromPairs(batch.entries);
    var t := Stages(w, table).value;
    var resp := ProcessBatch(w, batch).value.entries;
    StagesMergeAlign(w, table);
    ResponsePairsJobsWithMerged(w, batch);
    forall i | 0 <= i < |table| && t.outcomes[i].Valid?
      ensures CountValid(t.outcomes[..i]) < |t.results|
      ensures resp[i].0 == table[i].0
      ensures Pack(w.codecs, w.mode, t.results[CountValid(t.outcomes[..i])]) == Success(resp[i].1)
    {
      var c := CountValid(t.outcomes[..i]);
      assert resp[i].1 == t.packed[c];
    }
  }

  /** The response has an `error_ids` entry exactly when some failed job has
      a non-empty id, and then it is the failed ids in batch order. */
  lemma {:induction false} ErrorIdsEntry(w: Worker, batch: Value)
    requires ProcessBatch(w, batch).Success?
    requires ErrorIdsKey !in Keys(FromPairs(batch.entries))
    ensures var table := FromPairs(batch.entries);
      var t := Stages(w, table).value;
      var resp := ProcessBatch(w, batch).value.entries;
      && (Lookup(resp, ErrorIdsKey).Some? <==>
            exists i :: 0 <= i < |table| && t.outcomes[i].Invalid? && table[i].0 != "")
      && (Lookup(resp, ErrorIdsKey).Some? ==>
            Lookup(resp, ErrorIdsKey) == Some(Str(FailedIds(Keys(table), t.outcomes))))
  {
    var table := FromPairs(batch.entries);
    var t := Stages(w, table).value;
    ErrorIdsResponse(table, t.outcomes, t.merged);
  }

  /** `ErrorIdsEntry` for a response built from any table, outcomes and
      merged results of matching length. */
  lemma {:induction false} ErrorIdsResponse(table: Dict, outcomes: seq<Item>, merged: seq<Value>)
    requires |outcomes| == |table| == |merged| && ErrorIdsKey !in Keys(table)
    ensures var errorIds := FailedIds(Keys(table), outcomes);
      var resp := Zip(Keys(table), merged) + (if errorIds == "" then [] else [(ErrorIdsKey, Str(errorIds))]);
      && (Lookup(resp, ErrorIdsKey).Some? <==>
            exists i :: 0 <= i < |table| && outcomes[i].Invalid? && table[i].0 != "")
      && (Lookup(resp, ErrorIdsKey).Some? ==> Lookup(resp, ErrorIdsKey) == Some(Str(errorIds)))
  {
    ErrorIdsTail(Keys(table), merged, FailedIds(Keys(table), outcomes));
    FailedIdsEmpty(Keys(table), outcomes);
  }

  /** Looking up `error_ids` in the zipped pairs plus the optional tail entry
      finds that entry, and nothing when the tail is absent. */
  lemma {:induction false} ErrorIdsTail(ids: seq<string>, merged: seq<Value>, errorIds: string)
    requires |merged| == |ids| && ErrorIdsKey !in ids
    ensures var resp := Zip(ids, merged) + (if errorIds == "" then [] else [(ErrorIdsKey, Str(errorIds))]);
      && (Lookup(resp, ErrorIdsKey).Some? <==> errorIds != "")
      && (errorIds != "" ==> Lookup(resp, ErrorIdsKey) == Some(Str(errorIds)))
  {
    var z := Zip(ids, merged);
    assert Keys(z) == ids;
    if errorIds != "" {
      var resp := z + [(ErrorIdsKey, Str(errorIds))];
      assert Keys(resp) == ids + [ErrorIdsKey];
      assert IndexOf(Keys(resp), ErrorIdsKey) == |ids|;
    } else {
      assert z + [] == z;
    }
  }

  /** A batch of two jobs, the first of whose payload passes the request
      schema and the second of whose payload decodes but violates it: the
      response answers the first with its packed result and the second with
      its packed violations, in that order, and lists the second id under
      `error_ids`. */
  lemma {:induction false} MixedBatch(w: Worker, entries: Dict)
    requires |entries| == 2 && entries[0].0 != entries[1].0 && entries[1].0 != ""
    requires entries[0].0 != ErrorIdsKey && entries[1].0 != ErrorIdsKey
    requires Unpack(w.codecs, w.mode, entries[0].1).Success?
    requires w.requestSchema(Unpack(w.codecs, w.mode, entries[0].1).value).Success?
    requires Unpack(w.codecs, w.mode, entries[1].1).Success?
    requires w.requestSchema(Unpack(w.codecs, w.mode, entries[1].1).value).Failure?
    requires Pack(w.codecs, w.mode, w.requestSchema(Unpack(w.codecs, w.mode, entries[1].1).value).error).Success?
    requires var obj := w.requestSchema(Unpack(w.codecs, w.mode, entries[0].1).value).value;
      && |w.infer([obj])| == 1
      && w.responseSchema(w.infer([obj])[0]).Success?
      && Pack(w.codecs, w.mode, w.infer([obj])[0]).Success?
    ensures ProcessBatch(w, Map(entries)).Success?
    ensures var obj := w.requestSchema(Unpack(w.codecs, w.mode, entries[0].1).value).value;
      var violations := w.requestSchema(Unpack(w.codecs, w.mode, entries[1].1).value).error;
      var resp := ProcessBatch(w, Map(entries)).value.entries;
      && |resp| == 3
      && resp[0] == (entries[0].0, Pack(w.codecs, w.mode, w.infer([obj])[0]).value)
      && resp[1] == (entries[1].0, Pack(w.codecs, w.mode, violations).value)
      && resp[2] == (ErrorIdsKey, Str(entries[1].0))
  {
    KeysOfTwo(entries);
    FromDistinctPairs(entries);
    MixedAnswered(w, entries);
    DistinctEnvelope(w, entries);
    MixedStages(w, entries);
    var t := Stages(w, entries).value;
    MixedResponse(ProcessBatch(w, Map(entries)).value.entries, t.ids, t.merged, t.errorIds);
  }

  /** The two-job batch of `MixedBatch` gets through every stage: the
      violation is recorded, not raised. */
  lemma {:induction false} MixedAnswered(w: Worker, table: Dict)
    requires |table| == 2
    requires Unpack(w.codecs, w.mode, table[0].1).Success?
    requires w.requestSchema(Unpack(w.codecs, w.mode, table[0].1).value).Success?
    requires Unpack(w.codecs, w.mode, table[1].1).Success?
    requires w.requestSchema(Unpack(w.codecs, w.mode, table[1].1).value).Failure?
    requires Pack(w.codecs, w.mode, w.requestSchema(Unpack(w.codecs, w.mode, table[1].1).value).error).Success?
    requires var obj := w.requestSchema(Unpack(w.codecs, w.mode, table[0].1).value).value;
      && |w.infer([obj])| == 1
      && w.responseSchema(w.infer([obj])[0]).Success?
      && Pack(w.codecs, w.mode, w.infer([obj])[0]).Success?
    ensures Stages(w, table).Success?
  {
    var obj := w.requestSchema(Unpack(w.codecs, w.mode, table[0].1).value).value;
    var violations := w.requestSchema(Unpack(w.codecs, w.mode, table[1].1).value).error;
    var pv := Pack(w.codecs, w.mode, violations).value;
    MixedValidates(w, Vals(table), obj, pv);
    var o := ValidateAll(w, Vals(table)).value;
    TwoOutcomes(o, obj, pv, [pv], Keys(table));
    var results := w.infer([obj]);
    assert Infer(w, [obj]) == Success(results);
    assert CheckAll(w, results).Success?;
    assert PackAll(w, results).Success?;
  }

  /** Validation of the two payloads of `MixedBatch`, position by position. */
  lemma {:induction false} MixedValidates(w: Worker, payloads: seq<Value>, obj: Value, pv: Value)
    requires |payloads| == 2
    requires Unpack(w.codecs, w.mode, payloads[0]).Success?
    requires w.requestSchema(Unpack(w.codecs, w.mode, payloads[0]).value) == Success(obj)
    requires Unpack(w.codecs, w.mode, payloads[1]).Success?
    requires w.requestSchema(Unpack(w.codecs, w.mode, payloads[1]).value).Failure?
    requires Pack(w.codecs, w.mode, w.requestSchema(Unpack(w.codecs, w.mode, payloads[1]).value).error) == Success(pv)
    ensures ValidateAll(w, payloads).Success?
    ensures |ValidateAll(w, payloads).value| == 2
    ensures ValidateAll(w, payloads).value[0] == Valid(obj)
    ensures ValidateAll(w, payloads).value[1] == Invalid(pv)
  {
    assert Classify(w, payloads[0], 0) == Success(Valid(obj));
    assert Classify(w, payloads[1], 1) == Success(Invalid(pv));
  }

  /** The response built from two job ids, their merged results and a
      non-empty `error_ids` string, position by position. */
  lemma MixedResponse(resp: Dict, ids: seq<string>, merged: seq<Value>, errorIds: string)
    requires |ids| == 2 && |merged| == 2 && errorIds != ""
    requires resp == Zip(ids, merged) + (if errorIds == "" then [] else [(ErrorIdsKey, Str(errorIds))])
    ensures |resp| == 3
    ensures resp[0] == (ids[0], merged[0]) && resp[1] == (ids[1], merged[1])
    ensures resp[2] == (ErrorIdsKey, Str(errorIds))
  {
  }

  /** An envelope whose job ids are distinct and avoid `error_ids` becomes
      the job table unchanged, and the response is the zipped ids and merged
      results plus the optional `error_ids` entry. */
  lemma {:induction false} DistinctEnvelope(w: Worker, entries: Dict)
    requires Distinct(Keys(entries)) && ErrorIdsKey !in Keys(entries)
    requires ProcessBatch(w, Map(entries)).Success?
    ensures FromPairs(entries) == entries
    ensures var t := Stages(w, entries).value;
      ProcessBatch(w, Map(entries)).value.entries ==
        Zip(t.ids, t.merged) + (if t.errorIds == "" then [] else [(ErrorIdsKey, Str(t.errorIds))])
  {
    FromDistinctPairs(entries);
  }

  lemma KeysOfTwo(d: Dict)
    requires |d| == 2 && d[0].0 != d[1].0
    requires d[0].0 != ErrorIdsKey && d[1].0 != ErrorIdsKey
    ensures Keys(d) == [d[0].0, d[1].0]
    ensures Distinct(Keys(d)) && ErrorIdsKey !in Keys(d)
  {
    assert Keys(d) == [d[0].0, d[1].0];
  }

  /** The intermediate lists of the two-job batch of `MixedBatch`. */
  lemma {:induction false} MixedStages(w: Worker, table: Dict)
    requires |table| == 2 && Stages(w, table).Success?
    requires Unpack(w.codecs, w.mode, table[0].1).Success?
    requires w.requestSchema(Unpack(w.codecs, w.mode, table[0].1).value).Success?
    requires Unpack(w.codecs, w.mode, table[1].1).Success?
    requires w.requestSchema(Unpack(w.codecs, w.mode, table[1].1).value).Failure?
    ensures var obj := w.requestSchema(Unpack(w.codecs, w.mode, table[0].1).value).value;
      var violations := w.requestSchema(Unpack(w.codecs, w.mode, table[1].1).value).error;
      var t := Stages(w, table).value;
      && |w.infer([obj])| == 1
      && Pack(w.codecs, w.mode, w.infer([obj])[0]).Success?
      && Pack(w.codecs, w.mode, violations).Success?
      && |t.ids| == 2 && t.ids[0] == table[0].0 && t.ids[1] == table[1].0
      && |t.merged| == 2
      && t.merged[0] == Pack(w.codecs, w.mode, w.infer([obj])[0]).value
      && t.merged[1] == Pack(w.codecs, w.mode, violations).value
      && t.errorIds == table[1].0
  {
    MixedOutcomes(w, table);
    var t := Stages(w, table).value;
    MixedTrace(w, t, t.outcomes[0].item, t.outcomes[1].error);
  }

  /** How each job of the two-job batch of `MixedBatch` is classified. */
  lemma {:induction false} MixedOutcomes(w: Worker, table: Dict)
    requires |table| == 2 && Stages(w, table).Success?
    requires Unpack(w.codecs, w.mode, table[0].1).Success?
    requires w.requestSchema(Unpack(w.codecs, w.mode, table[0].1).value).Success?
    requires Unpack(w.codecs, w.mode, table[1].1).Success?
    requires w.requestSchema(Unpack(w.codecs, w.mode, table[1].1).value).Failure?
    ensures var violations := w.requestSchema(Unpack(w.codecs, w.mode, table[1].1).value).error;
      var t := Stages(w, table).value;
      && Pack(w.codecs, w.mode, violations).Success?
      && |t.outcomes| == 2
      && t.outcomes[0] == Valid(w.requestSchema(Unpack(w.codecs, w.mode, table[0].1).value).value)
      && t.outcomes[1] == Invalid(Pack(w.codecs, w.mode, violations).value)
  {
    StagesClassifyInOrder(w, table);
  }

  /** The later stages of `MixedStages`, for any trace whose lists are
      related as `Stages` relates them. */
  lemma {:induction false} MixedTrace(w: Worker, t: Trace, obj: Value, pv: Value)
    requires |t.outcomes| == 2 && t.outcomes[0] == Valid(obj) && t.outcomes[1] == Invalid(pv)
    requires |t.ids| == 2
    requires t.validated == Partition(t.outcomes).validated
    requires Infer(w, t.validated) == Success(t.results)
    requires PackAll(w, t.results) == Success(t.packed)
    requires |t.packed| == CountValid(t.outcomes) && t.merged == Merge(t.outcomes, t.packed)
    requires t.errorIds == FailedIds(t.ids, t.outcomes)
    ensures |w.infer([obj])| == 1
    ensures Pack(w.codecs, w.mode, w.infer([obj])[0]).Success?
    ensures |t.merged| == 2
    ensures t.merged[0] == Pack(w.codecs, w.mode, w.infer([obj])[0]).value
    ensures t.merged[1] == pv
    ensures t.errorIds == t.ids[1]
  {
    TwoOutcomes(t.outcomes, obj, pv, t.packed, t.ids);
    assert Pack(w.codecs, w.mode, t.results[0]) == Success(t.packed[0]);
  }

  /** The bookkeeping for a valid job followed by a failed one. */
  lemma {:induction false} TwoOutcomes(o: seq<Item>, x: Value, e: Value, packed: seq<Value>, ids: seq<string>)
    requires |o| == 2 && o[0] == Valid(x) && o[1] == Invalid(e)
    requires |packed| == 1 && |ids| == 2
    ensures Partition(o).validated == [x]
    ensures CountValid(o) == 1
    ensures Merge(o, packed) == [packed[0], e]
    ensures FailedIds(ids, o) == ids[1]
  {
    assert o[..1] == [Valid(x)];
    assert o[..1][..0] == [];
    assert ids[..1][..0] == [];
    assert FailedIds(ids[..1][..0], o[..1][..0]) == "";
    assert FailedIds(ids[..1], o[..1]) == "";
    assert FailedIds(ids, o) == "" + ids[1];
    assert packed[..0] == [];
  }

  /** Inference sees only the validated items, in batch order, and is not
      called at all when none validated: replacing the callable by any other
      that agrees on that one list changes nothing, whether the batch is
      answered or aborts. */
  lemma {:induction false} InferSeesOnlyValidated(w: Worker, table: Dict, f: seq<Value> -> seq<Value>)
    requires ValidateAll(w, Vals(table)).Success? ==>
      var validated := Partition(ValidateAll(w, Vals(table)).value).validated;
      validated != [] ==> f(validated) == w.infer(validated)
    ensures Stages(w.(infer := f), table) == Stages(w, table)
  {
    var w' := w.(infer := f);
    OtherStagesIgnoreInfer(w, f, Vals(table));
    if ValidateAll(w, Vals(table)).Success? {
      var validated := Partition(ValidateAll(w, Vals(table)).value).validated;
      assert Infer(w', validated) == Infer(w, validated);
      if Infer(w, validated).Success? {
        OtherStagesIgnoreInfer(w, f, Infer(w, validated).value);
      }
    }
    StagesCongruence(w', w, table);
  }

  /** `Stages` only looks at what its four steps return. */
  lemma StagesCongruence(w': Worker, w: Worker, table: Dict)
    requires ValidateAll(w', Vals(table)) == ValidateAll(w, Vals(table))
    requires ValidateAll(w, Vals(table)).Success? ==>
      var validated := Partition(ValidateAll(w, Vals(table)).value).validated;
      && Infer(w', validated) == Infer(w, validated)
      && (Infer(w, validated).Success? ==>
            && CheckAll(w', Infer(w, validated).value) == CheckAll(w, Infer(w, validated).value)
            && PackAll(w', Infer(w, validated).value) == PackAll(w, Infer(w, validated).value))
    ensures Stages(w', table) == Stages(w, table)
  {
  }

  /** Validation, the response check and packing do not call inference. */
  lemma OtherStagesIgnoreInfer(w: Worker, f: seq<Value> -> seq<Value>, xs: seq<Value>)
    ensures ValidateAll(w.(infer := f), xs) == ValidateAll(w, xs)
    ensures CheckAll(w.(infer := f), xs) == CheckAll(w, xs)
    ensures PackAll(w.(infer := f), xs) == PackAll(w, xs)
  {
    var w' := w.(infer := f);
    TraverseCongruence(xs, (raw, i) => Classify(w', raw, i), (raw, i) => Classify(w, raw, i));
    TraverseCongruence(xs, (result, k) => CheckResponse(w', result, k), (result, k) => CheckResponse(w, result, k));
    TraverseCongruence(xs, (result, k) => PackResult(w', result, k), (result, k) => PackResult(w, result, k));
  }

  /** A payload that fails to decode with one of the caught exceptions, or
      that violates the request schema, never fails the batch: as long as
      every error detail packs, validation answers every job. */
  lemma {:induction false} RecoverableErrorsDoNotAbort(w: Worker, payloads: seq<Value>)
    requires forall i :: 0 <= i < |payloads| ==>
      match Unpack(w.codecs, w.mode, payloads[i])
      case Failure(e) => e.Recoverable? && Pack(w.codecs, w.mode, Str(e.message)).Success?
      case Success(data) => w.requestSchema(data).Failure? ==> Pack(w.codecs, w.mode, w.requestSchema(data).error).Success?
    ensures ValidateAll(w, payloads).Success? && |ValidateAll(w, payloads).value| == |payloads|
  {
    forall i | 0 <= i < |payloads|
      ensures Classify(w, payloads[i], i).Success?
    {
      var raw := payloads[i];
      match Unpack(w.codecs, w.mode, raw)
      case Failure(e) =>
        assert Reject(w, Str(e.message)).Success?;
      case Success(data) =>
        if w.requestSchema(data).Failure? {
          assert Reject(w, w.requestSchema(data).error).Success?;
        }
    }
  }

  /** A result count that differs from the number of validated items aborts
      the batch; nothing is truncated or padded. */
  lemma CountMismatchAborts(w: Worker, table: Dict)
    requires ValidateAll(w, Vals(table)).Success?
    requires var validated := Partition(ValidateAll(w, Vals(table)).value).validated;
      validated != [] && |w.infer(validated)| != |validated|
    ensures var validated := Partition(ValidateAll(w, Vals(table)).value).validated;
      Stages(w, table) == Failure(ResultCountMismatch(|validated|, |w.infer(validated)|))
  {
  }

  /** A result that violates the response schema aborts the batch, which
      reports the first such result. */
  lemma ResponseViolationAborts(w: Worker, table: Dict, k: nat)
    requires ValidateAll(w, Vals(table)).Success?
    requires var validated := Partition(ValidateAll(w, Vals(table)).value).validated;
      && Infer(w, validated).Success?
      && k < |Infer(w, validated).value|
      && w.responseSchema(Infer(w, validated).value[k]).Failure?
    ensures var results := Infer(w, Partition(ValidateAll(w, Vals(table)).value).validated).value;
      && Stages(w, table).Failure?
      && Stages(w, table).error.ResponseInvalid?
      && Stages(w, table).error.index <= k
      && w.responseSchema(results[Stages(w, table).error.index]) == Failure(Stages(w, table).error.violations)
  {
    var results := Infer(w, Partition(ValidateAll(w, Vals(table)).value).validated).value;
    assert CheckResponse(w, results[k], k).Failure?;
    assert CheckAll(w, results).Failure?;
  }

  /** A payload that the front-end packed in the connection's own mode is
      judged by the request schema alone. */
  lemma WellEncodedPayload(w: Worker, v: Value, i: nat)
    requires RoundTrips(w.codecs, w.mode)
    requires Pack(w.codecs, w.mode, v).Success?
    ensures w.requestSchema(v).Success? ==>
      Classify(w, Pack(w.codecs, w.mode, v).value, i) == Success(Valid(w.requestSchema(v).value))
    ensures w.requestSchema(v).Failure? ==>
      Classify(w, Pack(w.codecs, w.mode, v).value, i) == Reject(w, w.requestSchema(v).error)
  {
  }

  /** One `process` call on the socket: read a frame, decode the envelope
      with msgpack whatever the payload mode, answer it, and write the
      msgpack-packed response as one frame. Returns the bytes written and
      the bytes still unread. */
  function ProcessFrame(w: Worker, stream: seq<byte>): (r: Result<(seq<byte>, seq<byte>), Abort>)
    ensures r.Success? ==> ReadFrame(stream).Success? && r.value.1 == ReadFrame(stream).value.1
    ensures r.Success? ==> |r.value.1| < |stream|
    ensures r.Success? ==> ReadFrame(r.value.0).Success? && ReadFrame(r.value.0).value.1 == []
    ensures ReadFrame(stream).Failure? ==> r == Failure(FrameFailed(ReadFrame(stream).error))
    ensures ReadFrame(stream).Success? ==>
      var data := ReadFrame(stream).value.0;
      (r.Success? <==>
        && w.codecs.msgpackUnpack(data).Success?
        && ProcessBatch(w, w.codecs.msgpackUnpack(data).value).Success?
        && w.codecs.msgpackPack(ProcessBatch(w, w.codecs.msgpackUnpack(data).value).value).Success?
        && |w.codecs.msgpackPack(ProcessBatch(w, w.codecs.msgpackUnpack(data).value).value).value| <= Int32Max)
  {
    match ReadFrame(stream)
    case Failure(e) => Failure(FrameFailed(e))
    case Success((data, rest)) =>
      match w.codecs.msgpackUnpack(data)
      case Failure(e) => Failure(EnvelopeUndecodable(e))
      case Success(batch) =>
        match ProcessBatch(w, batch)
        case Failure(a) => Failure(a)
        case Success(resp) =>
          match w.codecs.msgpackPack(resp)
          case Failure(m) => Failure(PackFailed(m))
          case Success(bytes) =>
            match WriteFrame(bytes)
            case Failure(e) => Failure(FrameFailed(e))
            case Success(out) =>
              ReadWrittenFrame(bytes, []);
              assert out + [] == out;
              Success((out, rest))
  }

  /** The envelope is msgpack in both directions, in either payload mode:
      the request frame's body is what `msgpackUnpack` decoded, and reading
      the written frame back yields exactly the msgpack packing of the
      response envelope. */
  lemma {:induction false} EnvelopeIsMsgpack(w: Worker, stream: seq<byte>)
    requires ProcessFrame(w, stream).Success?
    ensures var data := ReadFrame(stream).value.0;
      && w.codecs.msgpackUnpack(data).Success?
      && ProcessBatch(w, w.codecs.msgpackUnpack(data).value).Success?
      && w.codecs.msgpackPack(ProcessBatch(w, w.codecs.msgpackUnpack(data).value).value).Success?
      && ReadFrame(ProcessFrame(w, stream).value.0) ==
           Success((w.codecs.msgpackPack(ProcessBatch(w, w.codecs.msgpackUnpack(data).value).value).value, []))
  {
    var data := ReadFrame(stream).value.0;
    var resp := ProcessBatch(w, w.codecs.msgpackUnpack(data).value).value;
    var bytes := w.codecs.msgpackPack(resp).value;
    ReadWrittenFrame(bytes, []);
    assert WriteFrame(bytes).value + [] == WriteFrame(bytes).value;
  }

  /** The serving loop over a finite inbound stream: one response frame per
      request frame, until the stream runs out or a batch aborts. */
  function Serve(w: Worker, inbound: seq<byte>): (out: seq<byte>)
    ensures ReadFrames(out).1 == []
    ensures |ReadFrames(out).0| <= |ReadFrames(inbound).0|
    ensures ProcessFrame(w, inbound).Failure? ==> out == []
    decreases |inbound|
  {
    match ProcessFrame(w, inbound)
    case Failure(_) => []
    case Success((written, rest)) =>
      var tail := Serve(w, rest);
      ReadFrameExtend(written, tail);
      written + tail
  }

  /** What the worker writes on one connection: the handshake, then the
      responses. The peer's first read is a frame with an empty body. */
  function Session(w: Worker, inbound: seq<byte>): (out: seq<byte>)
    ensures |out| >= HeaderSize && out[..HeaderSize] == [0, 0, 0, 0]
    ensures ReadFrame(out) == Success(([], Serve(w, inbound)))
  {
    HandshakeIsEmptyFrame(Serve(w, inbound));
    Handshake() + Serve(w, inbound)
  }

  /** Each served response is one frame whose body is the msgpack packing of
      the answered envelope, followed by the responses to the rest of the
      stream. */
  lemma {:induction false} ServeAnswersInOrder(w: Worker, inbound: seq<byte>)
    requires ProcessFrame(w, inbound).Success?
    ensures var data := ReadFrame(inbound).value.0;
      var resp := ProcessBatch(w, w.codecs.msgpackUnpack(data).value).value;
      ReadFrame(Serve(w, inbound)) ==
        Success((w.codecs.msgpackPack(resp).value, Serve(w, ReadFrame(inbound).value.1)))
  {
    var (written, rest) := ProcessFrame(w, inbound).value;
    EnvelopeIsMsgpack(w, inbound);
    var data := ReadFrame(inbound).value.0;
    var resp := ProcessBatch(w, w.codecs.msgpackUnpack(data).value).value;
    var bytes := w.codecs.msgpackPack(resp).value;
    assert written == WriteFrame(bytes).value;
    ReadWrittenFrame(bytes, Serve(w, rest));
  }
}

=== FILE: serializer.dfy ===
/** The payload serializer: `_pack` and `_unpack`, which pick msgpack or JSON
    once, from the connection's `use_msgpack` flag. The encoders themselves
    are opaque collaborators, passed in as functions. */
module Serializer {
  import opened Bytes
  import opened Wrappers
  import opened Values

  /** How a decoder fails. The batch loop catches `JSONDecodeError` and
      msgpack's `ExtraData`, `FormatError` and `StackError` per item
      (`Recoverable`); any other exception leaves `process` (`Fatal`). */
  datatype DecodeError = Recoverable(message: string) | Fatal(message: string)

  /** The msgpack and JSON libraries as seen by the protocol.
      `msgpackPack` is `Packer(use_bin_type=True).pack`, `msgpackUnpack` is
      `unpackb(raw=False)`, `jsonDumps` is `json.dumps` and `jsonLoads` is
      `json.loads` applied to a `str` or `bytes` value. */
  datatype Codecs = Codecs(
    msgpackPack: Value -> Result<seq<byte>, string>,
    msgpackUnpack: seq<byte> -> Result<Value, DecodeError>,
    jsonDumps: Value -> Result<string, string>,
    jsonLoads: Value -> Result<Value, DecodeError>)

  /** `use_msgpack`, fixed when the protocol object is built. */
  datatype Mode = Msgpack | Json

  /** `_pack`: msgpack yields `bytes`, `json.dumps` yields a `str`; either is
      what goes into the response envelope. */
  function Pack(c: Codecs, mode: Mode, v: Value): (r: Result<Value, string>)
    ensures mode == Msgpack ==> (r.Success? <==> c.msgpackPack(v).Success?)
    ensures mode == Msgpack && r.Success? ==> r.value == Bin(c.msgpackPack(v).value)
    ensures mode == Json ==> (r.Success? <==> c.jsonDumps(v).Success?)
    ensures mode == Json && r.Success? ==> r.value == Str(c.jsonDumps(v).value)
  {
    match mode
    case Msgpack =>
      (match c.msgpackPack(v)
       case Success(b) => Success(Bin(b))
       case Failure(m) => Failure(m))
    case Json =>
      (match c.jsonDumps(v)
       case Success(s) => Success(Str(s))
       case Failure(m) => Failure(m))
  }

  /** `_unpack`: `msgpack.unpackb` only accepts bytes and `json.loads` only
      `str` or `bytes`; anything else is a `TypeError`, which the batch loop
      does not catch. */
  function Unpack(c: Codecs, mode: Mode, raw: Value): (r: Result<Value, DecodeError>)
    ensures mode == Msgpack && !raw.Bin? ==> r.Failure? && r.error.Fatal?
    ensures mode == Msgpack && raw.Bin? ==> r == c.msgpackUnpack(raw.bytes)
    ensures mode == Json && !(raw.Bin? || raw.Str?) ==> r.Failure? && r.error.Fatal?
    ensures mode == Json && (raw.Bin? || raw.Str?) ==> r == c.jsonLoads(raw)
  {
    match mode
    case Msgpack =>
      if raw.Bin? then c.msgpackUnpack(raw.bytes)
      else Failure(Fatal("a bytes-like object is required"))
    case Json =>
      if raw.Bin? || raw.Str? then c.jsonLoads(raw)
      else Failure(Fatal("the JSON object must be str or bytes"))
  }

  /** The serializer's promise: what `_pack` produces, `_unpack` in the same
      mode turns back into the original value. */
  ghost predicate RoundTrips(c: Codecs, mode: Mode) {
    forall v :: Pack(c, mode, v).Success? ==> Unpack(c, mode, Pack(c, mode, v).value) == Success(v)
  }
}

=== FILE: values.dfy ===
/** Octets as they travel over the socket. */
module Bytes {

  type byte = x: int | 0 <= x < 0x100
}

/** The in-memory values that the payload serializers and the schema
    collaborators exchange, and Python's insertion-ordered `dict` over them. */
module Values {
  import opened Bytes
  import opened Wrappers

  /** What msgpack (with `raw=False`) and JSON decode to: `None`, `bool`,
      `int`, `str`, `bytes`, `list` and a `dict` with string keys. */
  datatype Value =
    | Null
    | Bool(b: bool)
    | Int(i: int)
    | Str(s: string)
    | Bin(bytes: seq<byte>)
    | Array(items: seq<Value>)
    | Map(entries: Dict)

  /** A Python dict: its (key, value) pairs in insertion order. */
  type Dict = seq<(string, Value)>

  function Keys(d: seq<(string, Value)>): (ks: seq<string>)
    ensures |ks| == |d|
    ensures forall i :: 0 <= i < |d| ==> ks[i] == d[i].0
  {
    seq(|d|, i requires 0 <= i < |d| => d[i].0)
  }

  function Vals(d: Dict): (vs: seq<Value>)
    ensures |vs| == |d|
    ensures forall i :: 0 <= i < |d| ==> vs[i] == d[i].1
  {
    seq(|d|, i requires 0 <= i < |d| => d[i].1)
  }

  predicate Distinct(ks: seq<string>) {
    forall i, j :: 0 <= i < j < |ks| ==> ks[i] != ks[j]
  }

  /** Position of the first occurrence of `k` in `ks`. */
  function IndexOf(ks: seq<string>, k: string): (i: nat)
    requires k in ks
    ensures i < |ks| && ks[i] == k
    ensures forall j :: 0 <= j < i ==> ks[j] != k
  {
    if ks[0] == k then 0 else 1 + IndexOf(ks[1..], k)
  }

  /** `d.get(k)` */
  function Lookup(d: Dict, k: string): (r: Option<Value>)
    ensures r.None? <==> k !in Keys(d)
    ensures forall i :: 0 <= i < |d| && d[i].0 == k && Distinct(Keys(d)) ==> r == Some(d[i].1)
  {
    if k in Keys(d) then Some(d[IndexOf(Keys(d), k)].1) else None
  }

  /** `d[k] = v`: an existing key keeps its position and takes the new value;
      a new key goes to the end. */
  function Assign(d: Dict, k: string, v: Value): (r: Dict)
    ensures Lookup(r, k) == Some(v)
    ensures Distinct(Keys(d)) ==> forall k' :: k' != k ==> Lookup(r, k') == Lookup(d, k')
    ensures k in Keys(d) ==> Keys(r) == Keys(d)
    ensures k !in Keys(d) ==> r == d + [(k, v)]
    ensures Distinct(Keys(d)) ==> Distinct(Keys(r))
  {
    if k in Keys(d) then
      var i := IndexOf(Keys(d), k);
      var r := d[i := (k, v)];
      assert Keys(r) == Keys(d);
      r
    else
      var r := d + [(k, v)];
      assert Keys(r) == Keys(d) + [k];
      r
  }

  /** `dict(pairs)`: the pairs assigned one after the other. */
  function FromPairs(ps: seq<(string, Value)>): (d: Dict)
    ensures Distinct(Keys(d))
    ensures forall k :: k in Keys(d) <==> k in Keys(ps)
  {
    if ps == [] then []
    else
      var last := |ps| - 1;
      var init := FromPairs(ps[..last]);
      var d := Assign(init, ps[last].0, ps[last].1);
      assert Keys(ps) == Keys(ps[..last]) + [ps[last].0];
      assert forall k :: k in Keys(d) <==> k in Keys(init) || k == ps[last].0 by {
        if ps[last].0 !in Keys(init) {
          assert Keys(d) == Keys(init) + [ps[last].0];
        }
      }
      d
  }

  /** Position of the last occurrence of `k` in `ks`. */
  function LastIndexOf(ks: seq<string>, k: string): (i: nat)
    requires k in ks
    ensures i < |ks| && ks[i] == k
    ensures forall j :: i < j < |ks| ==> ks[j] != k
  {
    if ks[|ks| - 1] == k then |ks| - 1 else LastIndexOf(ks[..|ks| - 1], k)
  }

  /** The first occurrence of a key that is already in `ks` stays where it is
      when a key is appended. */
  lemma IndexOfAppend(ks: seq<string>, x: string, k: string)
    requires k in ks
    ensures IndexOf(ks + [x], k) == IndexOf(ks, k)
  {
    var i := IndexOf(ks, k);
    assert (ks + [x])[i] == k;
  }

  /** `dict(pairs)` with a repeated key: the key holds the value of its
      last occurrence. */
  lemma {:induction false} FromPairsLastValue(ps: seq<(string, Value)>)
    ensures forall k :: k in Keys(ps) ==> Lookup(FromPairs(ps), k) == Some(ps[LastIndexOf(Keys(ps), k)].1)
  {
    if ps != [] {
      var last := |ps| - 1;
      var init := ps[..last];
      var x := ps[last].0;
      FromPairsLastValue(init);
      var di := FromPairs(init);
      assert FromPairs(ps) == Assign(di, x, ps[last].1);
      assert Keys(ps) == Keys(init) + [x];
      forall k | k in Keys(ps)
        ensures Lookup(FromPairs(ps), k) == Some(ps[LastIndexOf(Keys(ps), k)].1)
      {
        if k != x {
          assert k in Keys(init);
          assert Keys(ps)[..last] == Keys(init);
          assert LastIndexOf(Keys(ps), k) == LastIndexOf(Keys(init), k);
          assert Lookup(FromPairs(ps), k) == Lookup(di, k);
        }
      }
    }
  }

  /** Every key of `ks` occurs in `source`, and the keys of `ks` follow the
      order of their first occurrences there. */
  predicate InFirstOccurrenceOrder(ks: seq<string>, source: seq<string>) {
    && (forall i :: 0 <= i < |ks| ==> ks[i] in source)
    && (forall i, j :: 0 <= i < j < |ks| ==> IndexOf(source, ks[i]) < IndexOf(source, ks[j]))
  }

  /** Appending to the source keeps the order of keys already in it. */
  lemma {:induction false} OrderExtendSource(ks: seq<string>, source: seq<string>, x: string)
    requires InFirstOccurrenceOrder(ks, source)
    ensures InFirstOccurrenceOrder(ks, source + [x])
  {
    forall i, j | 0 <= i < j < |ks|
      ensures IndexOf(source + [x], ks[i]) < IndexOf(source + [x], ks[j])
    {
      assert ks[i] in source && ks[j] in source;
      IndexOfAppend(source, x, ks[i]);
      IndexOfAppend(source, x, ks[j]);
    }
  }

  /** A key new to the source, appended to both, goes last in the order. */
  lemma {:induction false} OrderAppendNew(ks: seq<string>, source: seq<string>, x: string)
    requires InFirstOccurrenceOrder(ks, source) && x !in source
    requires forall k :: k in ks ==> k in source
    ensures InFirstOccurrenceOrder(ks + [x], source + [x])
  {
    OrderExtendSource(ks, source, x);
    var s' := source + [x];
    assert IndexOf(s', x) == |source|;
    forall i | 0 <= i < |ks|
      ensures ks[i] in s' && IndexOf(s', ks[i]) < IndexOf(s', x)
    {
      assert ks[i] in source;
    }
  }

  /** `dict(pairs)` with a repeated key: the key sits where it first
      occurred, so the keys come out in order of first occurrence. */
  lemma {:induction false} FromPairsFirstPosition(ps: seq<(string, Value)>)
    ensures InFirstOccurrenceOrder(Keys(FromPairs(ps)), Keys(ps))
  {
    if ps != [] {
      var last := |ps| - 1;
      var init := ps[..last];
      var x := ps[last].0;
      FromPairsFirstPosition(init);
      var di := FromPairs(init);
      assert FromPairs(ps) == Assign(di, x, ps[last].1);
      assert Keys(ps) == Keys(init) + [x];
      OrderAfterAssign(di, Keys(init), x, ps[last].1);
    }
  }

  /** One step of `dict(pairs)`: assigning the next pair keeps the keys in
      order of first occurrence in the pairs seen so far. */
  lemma {:induction false} OrderAfterAssign(d: Dict, source: seq<string>, x: string, v: Value)
    requires InFirstOccurrenceOrder(Keys(d), source)
    requires forall k :: k in Keys(d) <==> k in source
    ensures InFirstOccurrenceOrder(Keys(Assign(d, x, v)), source + [x])
  {
    if x in Keys(d) {
      assert Keys(Assign(d, x, v)) == Keys(d);
      OrderExtendSource(Keys(d), source, x);
    } else {
      assert Keys(Assign(d, x, v)) == Keys(d) + [x];
      OrderAppendNew(Keys(d), source, x);
    }
  }

  /** Pairs whose keys are already distinct come out of `dict` unchanged. */
  lemma {:induction false} FromDistinctPairs(ps: seq<(string, Value)>)
    requires Distinct(Keys(ps))
    ensures FromPairs(ps) == ps
  {
    if ps != [] {
      var last := |ps| - 1;
      var init := ps[..last];
      assert Keys(init) == Keys(ps)[..last];
      FromDistinctPairs(init);
      assert ps[last].0 !in Keys(init);
      assert init + [ps[last]] == ps;
    }
  }

  /** Python's `zip`: pairs up to the shorter of the two sequences. */
  function Zip(ks: seq<string>, vs: seq<Value>): (z: seq<(string, Value)>)
    ensures |z| == if |ks| <= |vs| then |ks| else |vs|
    ensures forall i :: 0 <= i < |z| ==> z[i] == (ks[i], vs[i])
  {
    var n := if |ks| <= |vs| then |ks| else |vs|;
    seq(n, i requires 0 <= i < n => (ks[i], vs[i]))
  }
}

=== FILE: wrappers.dfy ===
/** Result types, and the sequential map that stops at the
    first failing element (a Python `for` loop whose body may raise). */
module Wrappers {

  datatype Option<+T> = None | Some(value: T)

  datatype Result<+T, +E> = Success(value: T) | Failure(error: E)

  /** Applies `f` to every element in order, passing the element's index, and
      stops at the first element for which `f` fails. */
  function Traverse<A, B, E>(xs: seq<A>, f: (A, nat) -> Result<B, E>): (r: Result<seq<B>, E>)
    ensures r.Success? <==> forall i :: 0 <= i < |xs| ==> f(xs[i], i).Success?
    ensures r.Success? ==> |r.value| == |xs|
    ensures r.Success? ==> forall i :: 0 <= i < |xs| ==> f(xs[i], i) == Success(r.value[i])
    ensures r.Failure? ==>
      exists i :: 0 <= i < |xs| && f(xs[i], i) == Failure(r.error)
                  && forall j :: 0 <= j < i ==> f(xs[j], j).Success?
    decreases |xs|
  {
    if xs == [] then Success([])
    else
      var last := |xs| - 1;
      var prefix := xs[..last];
      assert forall i :: 0 <= i < last ==> prefix[i] == xs[i];
      match Traverse(prefix, f)
      case Failure(e) => Failure(e)
      case Success(ys) =>
        match f(xs[last], last)
        case Failure(e) => Failure(e)
        case Success(y) => Success(ys + [y])
  }

  /** `Traverse` only looks at what `f` returns. */
  lemma {:induction false} TraverseCongruence<A, B, E>(xs: seq<A>, f: (A, nat) -> Result<B, E>, g: (A, nat) -> Result<B, E>)
    requires forall x, i :: f(x, i) == g(x, i)
    ensures Traverse(xs, f) == Traverse(xs, g)
    decreases |xs|
  {
    if xs != [] {
      TraverseCongruence(xs[..|xs| - 1], f, g);
    }
  }
}
